=== FILE: README.md ===
# Dr.Chat healthcare chatbot: the `/api/chat` exchange in Dafny

Dr.Chat is a small Flask app with a browser front end. The page sends a typed
or dictated message to `POST /api/chat`. The server answers with one of three
things:

- a prompt to type something, when the message is blank;
- a fixed emergency referral, when the message names an emergency;
- otherwise a reply from the Gemini model.

The page cuts every text into paragraphs. It paints paragraphs that start
with "⚠️" in a bold red style, and it reveals an assistant reply one paragraph
per 350 ms tick.

This project models the decision logic on both sides of that exchange.

- `Text` (text.dfy) holds the character helpers.
  - Whitespace depends on the language (`Runtime`): JavaScript's `trim` and `\s` on the page, Python's `str.isspace` on the server. The two sets differ: Python also counts U+001C to U+001F and U+0085, and JavaScript also counts U+FEFF.
  - `Trim(JavaScript, s)` is JavaScript's `trim`, and `Trim(Python, s)` is Python's `strip`.
  - `Lower` is ASCII lower-casing.
  - `Contains` is substring search.
- `Display` (display.dfy) covers segmentation and the warning style.
  - The page splits with `/\n\s*\n|\n/`, then trims, then drops empty pieces.
  - The model states this as "split on line feeds, trim, keep the non-empty pieces" (`Segments`).
  - It keeps the regular-expression split as written (`RegexSplit`) and proves the two agree after cleaning (`RegexSplitAgrees`).
- `Interval` (interval.dfy) is the interval callback as a tick-driven stepper.
- `Client` (client.dfy) is the page as a state record, with one transition per browser event. Outgoing effects are logged rather than performed:
  - the POSTed messages;
  - the recogniser start and stop requests;
  - the alerts.
- `Server` (server.dfy) is `chat()`. It takes the parsed JSON body and the outcome of the Gemini call as inputs.
- `Exchange` (exchange.dfy) connects both ends. It covers what the server answers to messages the page can actually send, and how the page shows the server's fixed replies.

Things the code does that a reader might not expect:

- The speech path (`recognition.onend`) sends the input without checking the acknowledgement checkbox. Only the form submit checks it (`Client.CaptureSendsWithoutAck`).
- An assistant reply is revealed paragraph by paragraph and is never painted in the warning style. This holds even for the emergency referral, which starts with "⚠️": only `appendMessage` styles paragraphs, and the reveal does not use it. The warning style therefore reaches only messages built by `appendMessage`: the user's own messages and the client-side "⚠️ Could not contact server." The model follows the code here.
- The page and the server trim differently. A message made of U+001C, which JavaScript's `trim` keeps and Python's `strip` removes, passes the page's blank check and is posted. The server then answers "Please enter a message." (`Exchange.PythonOnlySpaceGetsPrompt`).
- A model text made only of whitespace is stripped to an empty reply. The page finds no segment in it, and the first tick still appends one empty paragraph (`Exchange.BlankModelTextShowsBlankParagraph`).

## Model

| member | source | states |
|---|---|---|
| Text.IsSpace | healthcare-chatbot/app.py:22 | defines whitespace per language: for JavaScript's `trim` and `\s`, ECMAScript's WhiteSpace and LineTerminator; for Python's `strip`, the characters `str.isspace` accepts |
| Text.Trim | healthcare-chatbot/static/script.js:24 | for the chosen language's whitespace, the result has no whitespace at either end, is the slice of the input that starts at the first non-whitespace character, leaves only whitespace after it, and is empty exactly when the input is whitespace only |
| Text.TrimUnique | healthcare-chatbot/static/script.js:136 | trimming any whitespace-padded trimmed text gives back exactly that text, so trim is characterised by its shape |
| Text.TrimSplits | healthcare-chatbot/app.py:22 | every string is its stripped form with whitespace before and after |
| Text.TrimIdempotent | healthcare-chatbot/static/script.js:136 | trimming twice is trimming once |
| Text.Lower | healthcare-chatbot/app.py:32 | `lower()` keeps the length, leaves no upper-case ASCII letter, and keeps every other character |
| Text.Contains | healthcare-chatbot/app.py:32 | defines Python's `p in s`: `p` occurs in `s` at some position |
| Text.StartsWith | healthcare-chatbot/static/script.js:27 | defines `s.startsWith(p)`: `p` is a prefix of `s` |
| Display.Lines | healthcare-chatbot/static/script.js:22 | a split on line feeds yields at least one piece |
| Display.LinesHaveNoNewline | healthcare-chatbot/static/script.js:22 | no piece of the split contains a line feed |
| Display.JoinLinesOfLines | healthcare-chatbot/static/script.js:22 | re-joining the pieces with line feeds restores the text, so nothing is lost by splitting |
| Display.LinesOfJoinLines | healthcare-chatbot/static/script.js:22 | splitting a join of line-feed-free pieces gives back those pieces |
| Display.LinesAppend | healthcare-chatbot/static/script.js:22 | the lines of `a + "\n" + b` are the lines of `a` followed by the lines of `b` |
| Display.Clean | healthcare-chatbot/static/script.js:23-25 | trimming and filtering keeps at most as many pieces, each non-empty and trimmed |
| Display.CleanKeepsTrims | healthcare-chatbot/static/script.js:23-25 | every piece whose trim is non-empty contributes that trim, and every kept piece is the trim of some piece |
| Display.CleanHasNoNewline | healthcare-chatbot/static/script.js:108-111 | cleaning line-feed-free pieces introduces no line feed |
| Display.CleanAppend | healthcare-chatbot/static/script.js:108-111 | cleaning works piece by piece, so it preserves order across a concatenation |
| Display.Segments | healthcare-chatbot/static/script.js:22-25 | every segment is non-empty, trimmed and free of line feeds, and there are no more segments than lines |
| Display.SegmentsOfOneLine | healthcare-chatbot/static/script.js:22-25 | a text without a line feed yields its trim if that is non-empty, and nothing otherwise |
| Display.SegmentsAppend | healthcare-chatbot/static/script.js:108-111 | segments keep the order of their source lines: the segments before a line feed come first |
| Display.SegmentsOfSpace | healthcare-chatbot/static/script.js:25 | whitespace-only text has no segments |
| Display.SeparatorEnd | healthcare-chatbot/static/script.js:22 | a separator match starting at a line feed ends just after a line feed, spans only whitespace, and, as the greedy `\s*` makes it, leaves no line feed in the rest of the whitespace run |
| Display.RegexSplit | healthcare-chatbot/static/script.js:108-109 | the split as the regular expression evaluates it yields at least one piece |
| Display.RegexSplitAgrees | healthcare-chatbot/static/script.js:108-111 | after trimming and filtering, the regular-expression split equals the split on single line feeds |
| Display.SkipSeparator | healthcare-chatbot/static/script.js:22 | the blank lines a separator swallows contribute no segment |
| Display.StyleOf | healthcare-chatbot/static/script.js:27-30 | defines the paragraph style: the error style exactly for a segment that starts with "⚠️" |
| Display.Paint | healthcare-chatbot/static/script.js:26-31 | one paragraph per segment, with the segment's text, styled as an alert exactly when it starts with "⚠️" |
| Display.PaintAppend | healthcare-chatbot/static/script.js:23-33 | painting works segment by segment, so it preserves order across a concatenation |
| Display.Render | healthcare-chatbot/static/script.js:22-33 | one paragraph per segment, in order, and a paragraph is in the error style if and only if its text starts with "⚠️" |
| Display.RenderAppend | healthcare-chatbot/static/script.js:22-33 | rendering preserves the order of the text's lines |
| Display.SegmentsOfTrimmedLine | healthcare-chatbot/static/script.js:22-25 | a non-empty trimmed line is its own single segment |
| Display.RenderTrimmedLine | healthcare-chatbot/static/script.js:22-33 | a non-empty trimmed line renders as one paragraph, styled by its prefix |
| Display.SegmentsOfThreeLines | healthcare-chatbot/static/script.js:22 | `a + "\n\n" + b + "\n" + c` for trimmed lines yields exactly `[a, b, c]`: a blank line and a line break both separate |
| Display.RenderExample | healthcare-chatbot/static/script.js:22-30 | the reply "A\n\nB\nC" has segments A, B, C, none of them styled |
| Interval.Start | healthcare-chatbot/static/script.js:113-115 | the interval starts running with nothing shown or spoken |
| Interval.Tick | healthcare-chatbot/static/script.js:116-122 | a firing appends exactly one paragraph and keeps the earlier ones, speaks that paragraph exactly when speech is on, does nothing once cleared, and keeps the reveal in a reachable state |
| Interval.TickAdvances | healthcare-chatbot/static/script.js:116-122 | while parts remain, a firing shows and speaks the next part and clears the interval after the last |
| Interval.RunShowsNextParts | healthcare-chatbot/static/script.js:113-123 | while parts remain, k firings show the next k parts in order, speak them when speech is on, and leave the interval running exactly when parts remain |
| Interval.AfterTicks | healthcare-chatbot/static/script.js:113-123 | for non-empty parts, after k ≤ \|parts\| firings the first k parts are shown; after \|parts\| firings all are shown, in order, and the interval is cleared |
| Interval.StoppedStaysStopped | healthcare-chatbot/static/script.js:122 | a cleared interval never changes the reveal again |
| Interval.EmptyReplyShowsOneBlank | healthcare-chatbot/static/script.js:117-122 | with no parts, the first firing still appends one empty paragraph and then clears the interval |
| Interval.RevealAll | healthcare-chatbot/static/script.js:113-123 | running the interval to completion shows every part (one blank paragraph when there are none), speaks the shown paragraphs when speech is on, and takes \|parts\| firings (one when there are none) |
| Client.Init | healthcare-chatbot/static/script.js:40-65 | the initial page is valid, has no items, posts, commands or alerts and an empty input, is idle, keeps the checkboxes as the markup sets them, and disables the microphone exactly when recognition is unavailable |
| Client.Send | healthcare-chatbot/static/script.js:83-99 | an empty text does nothing; otherwise the user message, then the placeholder, are appended, the input is cleared and the text is posted; nothing else on the page changes |
| Client.OnSubmit | healthcare-chatbot/static/script.js:132-140 | without the acknowledgement only the reminder alert is added; blank input changes nothing; otherwise a running capture is asked to stop and the trimmed input is sent, with no alert; nothing but the items, input, posts, commands and alerts changes |
| Client.OnMicClick | healthcare-chatbot/static/script.js:68-72 | without recognition nothing happens; otherwise exactly one command is issued, a stop exactly when capturing, and nothing else changes |
| Client.OnCaptureStarted | healthcare-chatbot/static/script.js:48-51 | without recognition nothing happens; otherwise the page is now capturing and shows the stop label, and nothing else changes |
| Client.OnCaptureEnded | healthcare-chatbot/static/script.js:53-57 | without recognition nothing happens; otherwise the page is idle again and the trimmed input is sent exactly when it is not blank, while a blank input stays as it is; no command or alert is issued |
| Client.OnTranscript | healthcare-chatbot/static/script.js:59-62 | without recognition nothing happens; otherwise the transcript replaces the input and nothing else changes |
| Client.Without | healthcare-chatbot/static/script.js:102 | removing an item leaves no copy of it, lowers its request's item count, and keeps every other item with its multiplicity |
| Client.WithoutAppend | healthcare-chatbot/static/script.js:102 | removal works item by item, so the items that stay keep their order |
| Client.WithoutOnly | healthcare-chatbot/static/script.js:102 | removing an item that occurs once closes the gap it leaves and changes nothing else |
| Client.OnSettled | healthcare-chatbot/static/script.js:101-128 | a settlement acts only on a pending request and changes only the items; on a reply the placeholder gives way to an answer item revealing the reply's segments; on a failure it gives way to exactly one assistant message, "⚠️ Could not contact server." |
| Client.SettledReplacesPlaceholder | healthcare-chatbot/static/script.js:102-128 | on a valid page settling removes exactly the request's placeholder, keeps every other item in place and order, and adds one item at the end |
| Client.TickAnswer | healthcare-chatbot/static/script.js:115-123 | one firing advances the reveal of the request's answer items and leaves every other item and every request's item count alone |
| Client.OnRevealTick | healthcare-chatbot/static/script.js:115-123 | one firing changes only the items, and of those only the request's answer items, whose reveal ticks |
| Client.TicksRunReveal | healthcare-chatbot/static/script.js:115-123 | on the page, n firings advance the request's answer item exactly as n steps of the stepper alone |
| Client.Step | healthcare-chatbot/static/script.js:48-140 | defines which handler each browser event runs: checkbox changes, typing, submit, microphone click, the recogniser's start, end and result, a settled request and a reveal firing |
| Client.StepKeepsValid | healthcare-chatbot/static/script.js:40-140 | every event keeps the page valid: a disabled microphone never records, the label follows the recogniser, each request owns at most one item, and every posted message is non-empty and trimmed |
| Client.SubmitBlocked | healthcare-chatbot/static/script.js:132-137 | submitting without the acknowledgement, or with blank input, sends nothing and adds no message |
| Client.SubmitSends | healthcare-chatbot/static/script.js:132-139 | with the acknowledgement and non-blank input, submitting posts the trimmed input and clears the field |
| Client.BlankCaptureEndSendsNothing | healthcare-chatbot/static/script.js:53-57 | a capture that ends with blank input posts nothing |
| Client.SubmitThenCaptureEndSendsOnce | healthcare-chatbot/static/script.js:56 | a capture ending after a successful submit finds the input cleared, so the text is sent once |
| Client.CaptureSendsWithoutAck | healthcare-chatbot/static/script.js:53-57 | the speech path sends without the acknowledgement, while the submit path refuses |
| Client.DeliveredReplyIsRevealed | healthcare-chatbot/static/script.js:101-123 | after a delivered reply with segments, one firing per segment shows every segment in order and clears the interval |
| Client.MicToggles | healthcare-chatbot/static/script.js:68-72 | a click while idle asks to start; after the recogniser starts, the next click asks to stop |
| Client.FailureTextIsAlert | healthcare-chatbot/static/script.js:126 | the failure warning renders as one paragraph in the error style |
| Server.ModelReply | healthcare-chatbot/app.py:58-62 | an exception gives "Error contacting Gemini API: " followed by its text; a missing response or text, or an empty text, gives the fallback; any other text becomes that text stripped by Python's rules |
| Server.IsEmergency | healthcare-chatbot/app.py:28-32 | defines the emergency test: some one of the eight phrases occurs in the lower-cased message |
| Server.Truthy | healthcare-chatbot/app.py:21 | defines Python truthiness of a JSON value, which decides whether `or {}` replaces the body |
| Server.Readable | healthcare-chatbot/app.py:21-22 | defines the bodies the handler can read: parsed JSON that is falsy or an object, whose `message`, when present, is a string |
| Server.MessageOf | healthcare-chatbot/app.py:22 | `data.get("message", "")`: the message is empty unless the body is an object that has a `message` field |
| Server.Route | healthcare-chatbot/app.py:22-64 | a blank message gets the prompt; otherwise an emergency gets the referral; otherwise the model's reply |
| Server.Chat | healthcare-chatbot/app.py:19-64 | a reply object is returned exactly for readable bodies and holds the routed reply; unparsable JSON gives 400 and any other failure gives 500 |
| Server.BlankMessageGetsPrompt | healthcare-chatbot/app.py:21-25 | a missing or blank message always gets "Please enter a message." |
| Server.ModelNotConsulted | healthcare-chatbot/app.py:24-40 | for blank or emergency messages the reply does not depend on the model's outcome |
| Server.ModelConsulted | healthcare-chatbot/app.py:38-62 | for any other message the reply does depend on the model's outcome |
| Server.PhrasesAreTrimmed | healthcare-chatbot/app.py:28-31 | every emergency phrase is non-empty with nothing to strip |
| Server.PhrasesAreLowerCase | healthcare-chatbot/app.py:28-32 | every emergency phrase is already lower case, so it can match the lower-cased message |
| Server.EmergencyReplyShape | healthcare-chatbot/app.py:33-35 | the referral is one line with nothing to strip and starts with "⚠️" |
| Server.ContainsPadded | healthcare-chatbot/app.py:22 | whitespace on both sides adds and removes no occurrence of a phrase whose ends are not whitespace |
| Server.ContainsIgnoresStrip | healthcare-chatbot/app.py:22 | such a phrase occurs in the lower-cased stripped message exactly when it occurs in the lower-cased raw message |
| Server.EmergencyIgnoresStrip | healthcare-chatbot/app.py:22 | stripping never changes whether a message is an emergency |
| Server.EmergencyIgnoresCase | healthcare-chatbot/app.py:32 | changing the case of ASCII letters never changes whether a message is an emergency |
| Server.ContainsExtends | healthcare-chatbot/app.py:32 | text added on either side keeps an occurrence |
| Server.EmergencyExtends | healthcare-chatbot/app.py:32-35 | more text around an emergency message keeps it an emergency, and the reply is the referral |
| Exchange.ReplayKeepsValid | healthcare-chatbot/static/script.js:40-140 | every page reachable from a valid one by browser events is valid |
| Exchange.RequestBody | healthcare-chatbot/static/script.js:95-98 | the body `JSON.stringify({ message: text })` that the page posts is readable by the server and carries exactly `text` |
| Exchange.SentMessageReplies | healthcare-chatbot/app.py:21-35 | every message the page posts is non-empty with no JavaScript whitespace at its ends; the server answers the prompt exactly when it is Python whitespace only, which needs a first character only Python strips, and otherwise the referral or the model's reply |
| Exchange.PageSendsCharacter | healthcare-chatbot/static/script.js:132-139 | a single character that is not JavaScript whitespace, typed and submitted with the acknowledgement, is posted as is |
| Exchange.ServerPromptsBlank | healthcare-chatbot/app.py:21-25 | a posted message that is Python whitespace only gets the prompt |
| Exchange.PythonOnlySpaceGetsPrompt | healthcare-chatbot/app.py:22-25 | each of U+001C to U+001F and U+0085 alone is posted by the page and answered with "Please enter a message." |
| Exchange.EmergencyReplyRevealsWhole | healthcare-chatbot/app.py:33-35 | the referral reaches the page as one segment starting with "⚠️", and one firing shows it whole and clears the interval |
| Exchange.BlankModelTextShowsBlankParagraph | healthcare-chatbot/app.py:59 | a whitespace-only model text gives an empty reply, which has no segments and is revealed as one blank paragraph |

## Left out

- DOM building, class names and auto-scrolling are left out. The model keeps only the list of message items and their paragraphs.
- `fetch`, `res.json()` and the Flask request and response plumbing are not modelled. The server's answer reaches the page as an event carrying a reply string or a failure.
- Responses that are not `{reply: string}` are left out. This includes `String(undefined)` for a missing `reply`.
- The Gemini client, `load_dotenv`, the environment and the prompt text are left out. The outcome of the model call is an input (`Server.Generation`).
- The index route and `app.run` are plumbing and are left out.
- `console.error` is left out.
- The browser's speech APIs are not modelled.
  - Recognition results arrive as events.
  - `recognition.start()` throwing when already started is left out.
  - Speech output is only logged, and only while the speech checkbox is ticked.
- Real time is not modelled.
  - The 350 ms interval is replaced by explicit firings.
  - Interleaving of overlapping sends and reveals follows the order of the events given.
- `alert` blocking is reduced to logging the alert text.
- Unicode letter case is not modelled: `lower()` changes ASCII letters only.
- JSON numbers are integers: only their truthiness matters to the route.
- Display.Lines: its own contract only says there is at least one piece. What the split is appears in `JoinLinesOfLines`, `LinesOfJoinLines` and `LinesHaveNoNewline`.
- Display.Clean: its own contract states only the shape of what is kept. Which pieces are kept is stated by `CleanKeepsTrims`, and their order by `CleanAppend`.
- Display.RegexSplit: its own contract only says there is at least one piece. Its relation to the page's behaviour is `RegexSplitAgrees`.

=== FILE: client.dfy ===
/** The chat page's controller (healthcare-chatbot/static/script.js) as a
    state record and one transition per browser event.

    The DOM is reduced to the list of message items, the input field, the
    two checkboxes and the microphone button. Effects on the outside world
    are logged rather than performed: the messages POSTed to `/api/chat`
    (`posted`, whose index serves as the request's identity), the start and
    stop requests sent to the speech recogniser (`commands`) and the
    `alert` texts shown (`alerts`). The network's answer to a request is an
    event carrying the reply text or a failure. */
module Client {
  import opened Text
  import opened Display
  import Interval

  datatype Role = User | Assistant

  /** One `<li>` of the message list. */
  datatype Item =
    | Message(role: Role, paragraphs: seq<Paragraph>)   // built by `appendMessage`
    | Thinking(req: nat)                                 // the "Thinking..." placeholder of request `req`
    | Answer(req: nat, progress: Interval.State)         // the assistant item the reveal of request `req` fills

  datatype MicLabel = MicIcon | StopIcon

  datatype Command = StartCapture | StopCapture

  /** How a request ends: the server's `reply`, or a network or parse failure. */
  datatype Settlement = Delivered(reply: string) | Failed

  datatype Event =
    | SetAck(checked: bool)
    | SetTts(checked: bool)
    | Type(text: string)
    | Submit
    | MicClick
    | CaptureStarted
    | CaptureEnded
    | Transcript(text: string)
    | Settled(req: nat, outcome: Settlement)
    | RevealTick(req: nat)

  datatype Page = Page(
    ack: bool,
    tts: bool,
    input: string,
    canRecognize: bool,
    isRecognizing: bool,
    micLabel: MicLabel,
    micDisabled: bool,
    items: seq<Item>,
    posted: seq<string>,
    commands: seq<Command>,
    alerts: seq<string>)

  const AckReminder: string := "Please acknowledge this is informational only."

  const FailureText: string := Warning + " Could not contact server."

  /** Number of items belonging to request `req`. */
  function ReqCount(items: seq<Item>, req: nat): nat {
    if |items| == 0 then 0
    else (if !items[0].Message? && items[0].req == req then 1 else 0) + ReqCount(items[1..], req)
  }

  /** What every reachable page satisfies: a disabled microphone never
      records or is asked to, the label follows the recogniser, each request
      owns at most one item and only requests already sent own one, every
      reveal is one the interval callback can reach, and every message sent
      is non-empty and trimmed. */
  ghost predicate Valid(c: Page) {
    && (!c.canRecognize ==> !c.isRecognizing && c.micDisabled && c.commands == [])
    && (c.canRecognize ==> !c.micDisabled)
    && c.micLabel == (if c.isRecognizing then StopIcon else MicIcon)
    && (forall q: nat :: ReqCount(c.items, q) <= 1)
    && (forall q: nat :: q >= |c.posted| ==> ReqCount(c.items, q) == 0)
    && (forall it :: it in c.items && it.Answer? ==> Interval.Consistent(it.progress))
    && (forall k :: 0 <= k < |c.posted| ==> c.posted[k] != "" && Trimmed(JavaScript, c.posted[k]))
  }

  /** The page once the script has run: the microphone is disabled when the
      browser has no speech recognition (script.js lines 40-65). The two
      checkboxes start as the page's markup sets them. */
  function Init(canRecognize: bool, ack: bool, tts: bool): (c: Page)
    ensures Valid(c)
    ensures c.items == [] && c.posted == [] && !c.isRecognizing
    ensures c.micDisabled <==> !canRecognize
    ensures c.input == "" && c.commands == [] && c.alerts == []
    ensures c.ack == ack && c.tts == tts && c.canRecognize == canRecognize
  {
    Page(ack, tts, "", canRecognize, false, MicIcon, !canRecognize, [], [], [], [])
  }

  /** `sendMessage(text)` up to the `await` (script.js lines 83-99): the
      user's message, then the cleared input, then the placeholder, then
      the POST. An empty text does nothing. */
  function Send(c: Page, text: string): (d: Page)
    ensures text == "" ==> d == c
    ensures text != "" ==>
              && d.items == c.items + [Message(User, Render(text)), Thinking(|c.posted|)]
              && d.input == ""
              && d.posted == c.posted + [text]
    ensures d.(items := c.items, input := c.input, posted := c.posted) == c
  {
    if text == "" then c
    else
      c.(items := c.items + [Message(User, Render(text)), Thinking(|c.posted|)],
         input := "",
         posted := c.posted + [text])
  }

  /** The form's submit handler (script.js lines 132-140). Without the
      acknowledgement only the reminder is shown; blank input is ignored;
      otherwise a running capture is stopped and the trimmed input sent. */
  function OnSubmit(c: Page): (d: Page)
    ensures !c.ack ==> d.items == c.items && d.posted == c.posted && d.input == c.input && d.alerts == c.alerts + [AckReminder]
    ensures c.ack && AllSpace(JavaScript, c.input) ==> d == c
    ensures c.ack && !AllSpace(JavaScript, c.input) ==>
              && d.posted == c.posted + [Trim(JavaScript, c.input)]
              && d.items == c.items + [Message(User, Render(Trim(JavaScript, c.input))), Thinking(|c.posted|)]
              && d.input == ""
              && d.commands == c.commands + (if c.isRecognizing && c.canRecognize then [StopCapture] else [])
              && d.alerts == c.alerts
    ensures !c.ack ==> d.commands == c.commands
    ensures d.(items := c.items, input := c.input, posted := c.posted, commands := c.commands, alerts := c.alerts) == c
  {
    if !c.ack then c.(alerts := c.alerts + [AckReminder])
    else
      var text := Trim(JavaScript, c.input);
      if text == "" then c
      else
        var c' := if c.isRecognizing && c.canRecognize then c.(commands := c.commands + [StopCapture]) else c;
        Send(c', text)
  }

  /** The microphone button (script.js lines 68-72): inert without speech
      recognition, otherwise stop when capturing and start when idle. The
      handler only asks; the flag changes when the recogniser reports back. */
  function OnMicClick(c: Page): (d: Page)
    ensures !c.canRecognize ==> d == c
    ensures c.canRecognize ==> |d.commands| == |c.commands| + 1 && d.commands[..|c.commands|] == c.commands
    ensures c.canRecognize ==> (d.commands[|c.commands|] == StopCapture <==> c.isRecognizing)
    ensures d.(commands := c.commands) == c
  {
    if !c.canRecognize then c
    else if c.isRecognizing then c.(commands := c.commands + [StopCapture])
    else c.(commands := c.commands + [StartCapture])
  }

  /** `recognition.onstart` (script.js lines 48-51). */
  function OnCaptureStarted(c: Page): (d: Page)
    ensures !c.canRecognize ==> d == c
    ensures c.canRecognize ==> d.isRecognizing && d.micLabel == StopIcon
    ensures d.(isRecognizing := c.isRecognizing, micLabel := c.micLabel) == c
  {
    if !c.canRecognize then c else c.(isRecognizing := true, micLabel := StopIcon)
  }

  /** `recognition.onend` (script.js lines 53-57): back to idle, and the
      input is sent when it holds more than whitespace. The acknowledgement
      checkbox is not consulted on this path. */
  function OnCaptureEnded(c: Page): (d: Page)
    ensures c.canRecognize ==> !d.isRecognizing && d.micLabel == MicIcon
    ensures c.canRecognize && !AllSpace(JavaScript, c.input) ==>
              d.posted == c.posted + [Trim(JavaScript, c.input)] && d.input == ""
              && d.items == c.items + [Message(User, Render(Trim(JavaScript, c.input))), Thinking(|c.posted|)]
    ensures !c.canRecognize ==> d == c
    ensures !c.canRecognize || AllSpace(JavaScript, c.input) ==> d.posted == c.posted && d.items == c.items && d.input == c.input
    ensures d.(isRecognizing := c.isRecognizing, micLabel := c.micLabel, items := c.items, input := c.input, posted := c.posted) == c
  {
    if !c.canRecognize then c
    else Send(c.(isRecognizing := false, micLabel := MicIcon), Trim(JavaScript, c.input))
  }

  /** `recognition.onresult` (script.js lines 59-62): the transcript replaces the input. */
  function OnTranscript(c: Page, text: string): (d: Page)
    ensures !c.canRecognize ==> d == c
    ensures c.canRecognize ==> d.input == text
    ensures d.(input := c.input) == c
  {
    if !c.canRecognize then c else c.(input := text)
  }

  /** The items without every copy of `x`. */
  function Without(items: seq<Item>, x: Item): (r: seq<Item>)
    ensures x !in r
    ensures forall it :: it in r ==> it in items
    ensures x !in items ==> r == items
    ensures forall q: nat :: ReqCount(r, q) <= ReqCount(items, q)
    ensures !x.Message? && x in items ==> ReqCount(r, x.req) < ReqCount(items, x.req)
    ensures multiset(r) == multiset(items)[x := 0]
  {
    if |items| == 0 then []
    else
      assert items == [items[0]] + items[1..];
      if items[0] == x then Without(items[1..], x)
      else [items[0]] + Without(items[1..], x)
  }

  lemma WithoutCons(y: Item, rest: seq<Item>, x: Item)
    ensures Without([y] + rest, x) == (if y == x then [] else [y]) + Without(rest, x)
  {
    assert ([y] + rest)[1..] == rest;
  }

  /** Removal works item by item, so it keeps the order of what stays. */
  lemma {:induction false} WithoutAppend(a: seq<Item>, b: seq<Item>, x: Item)
    ensures Without(a + b, x) == Without(a, x) + Without(b, x)
    decreases |a|
  {
    if |a| == 0 {
      assert a + b == b;
    } else {
      var y, rest := a[0], a[1..];
      var kept: seq<Item> := if y == x then [] else [y];
      assert a == [y] + rest;
      assert a + b == [y] + (rest + b);
      WithoutCons(y, rest + b, x);
      WithoutAppend(rest, b, x);
      WithoutCons(y, rest, x);
      ConcatAssoc(kept, Without(rest, x), Without(b, x));
    }
  }

  lemma ItemsAround(items: seq<Item>, i: nat)
    requires i < |items|
    ensures items == items[..i] + ([items[i]] + items[i + 1..])
  {
  }

  /** Removing an item that occurs once, at `i`, closes the gap it leaves. */
  lemma WithoutOnly(items: seq<Item>, i: nat)
    requires i < |items|
    requires items[i] !in items[..i] && items[i] !in items[i + 1..]
    ensures Without(items, items[i]) == items[..i] + items[i + 1..]
  {
    var x, pre, post := items[i], items[..i], items[i + 1..];
    ItemsAround(items, i);
    calc {
      Without(items, x);
      Without(pre + ([x] + post), x);
      { WithoutAppend(pre, [x] + post, x); }
      Without(pre, x) + Without([x] + post, x);
      { WithoutCons(x, post, x); assert [] + Without(post, x) == Without(post, x); }
      Without(pre, x) + Without(post, x);
      pre + post;
    }
  }

  /** A request is pending while its placeholder is on the page. */
  predicate Pending(c: Page, req: nat) {
    Thinking(req) in c.items
  }

  /** The end of `sendMessage` (script.js lines 101-128). On a reply the
      placeholder goes and an assistant item with the reply's segments is
      added for the reveal to fill; on a failure the placeholder goes and
      exactly one assistant message, the warning, is added. A request
      settles once, while pending. */
  function OnSettled(c: Page, req: nat, outcome: Settlement): (d: Page)
    ensures !Pending(c, req) ==> d == c
    ensures Pending(c, req) ==> !Pending(d, req)
    ensures d.(items := c.items) == c
    ensures Pending(c, req) && outcome.Delivered? ==>
              d.items == Without(c.items, Thinking(req)) + [Answer(req, Interval.Start(Segments(outcome.reply)))]
    ensures Pending(c, req) && outcome.Failed? ==>
              d.items == Without(c.items, Thinking(req)) + [Message(Assistant, Render(FailureText))]
  {
    if !Pending(c, req) then c
    else
      var rest := Without(c.items, Thinking(req));
      match outcome
      case Delivered(reply) => c.(items := rest + [Answer(req, Interval.Start(Segments(reply)))])
      case Failed => c.(items := rest + [Message(Assistant, Render(FailureText))])
  }

  /** The items after one firing of request `req`'s reveal interval. */
  function TickAnswer(items: seq<Item>, req: nat, tts: bool): (r: seq<Item>)
    ensures |r| == |items|
    ensures forall q: nat :: ReqCount(r, q) == ReqCount(items, q)
    ensures forall k :: 0 <= k < |items| ==>
              r[k] == (if items[k].Answer? && items[k].req == req
                       then Answer(req, Interval.Tick(items[k].progress, tts)) else items[k])
  {
    if |items| == 0 then []
    else
      var it := items[0];
      var it' := if it.Answer? && it.req == req then Answer(req, Interval.Tick(it.progress, tts)) else it;
      var r := [it'] + TickAnswer(items[1..], req, tts);
      assert r[1..] == TickAnswer(items[1..], req, tts);
      r
  }

  /** One firing of the reveal interval of request `req` (script.js lines
      115-123), reading the speech checkbox as it is now. */
  function OnRevealTick(c: Page, req: nat): (d: Page)
    ensures d.(items := c.items) == c && |d.items| == |c.items|
    ensures forall k :: 0 <= k < |c.items| ==>
              d.items[k] == (if c.items[k].Answer? && c.items[k].req == req
                             then Answer(req, Interval.Tick(c.items[k].progress, c.tts)) else c.items[k])
  {
    c.(items := TickAnswer(c.items, req, c.tts))
  }

  /** `n` firings of request `req`'s reveal interval. */
  function Ticks(c: Page, req: nat, n: nat): Page
    decreases n
  {
    if n == 0 then c else Ticks(OnRevealTick(c, req), req, n - 1)
  }

  /** On the page, the interval of request `req` drives the reveal held by
      that request's item exactly as the stepper runs on its own; no other
      item changes, and the page keeps its length. */
  lemma {:induction false} TicksRunReveal(c: Page, req: nat, n: nat, k: nat, s: Interval.State)
    requires k < |c.items| && c.items[k] == Answer(req, s)
    ensures |Ticks(c, req, n).items| == |c.items|
    ensures Ticks(c, req, n).items[k] == Answer(req, Interval.Run(s, n, c.tts))
    decreases n
  {
    if n > 0 {
      var d := OnRevealTick(c, req);
      TicksRunReveal(d, req, n - 1, k, Interval.Tick(s, c.tts));
    }
  }

  function Step(c: Page, e: Event): Page {
    match e
    case SetAck(b) => c.(ack := b)
    case SetTts(b) => c.(tts := b)
    case Type(t) => c.(input := t)
    case Submit => OnSubmit(c)
    case MicClick => OnMicClick(c)
    case CaptureStarted => OnCaptureStarted(c)
    case CaptureEnded => OnCaptureEnded(c)
    case Transcript(t) => OnTranscript(c, t)
    case Settled(req, outcome) => OnSettled(c, req, outcome)
    case RevealTick(req) => OnRevealTick(c, req)
  }

  lemma {:induction false} ReqCountAppend(a: seq<Item>, b: seq<Item>, q: nat)
    ensures ReqCount(a + b, q) == ReqCount(a, q) + ReqCount(b, q)
    decreases |a|
  {
    if |a| > 0 {
      assert (a + b)[1..] == a[1..] + b;
      ReqCountAppend(a[1..], b, q);
    } else {
      assert a + b == b;
    }
  }

  lemma {:induction false} PresentCounts(items: seq<Item>, x: Item)
    requires !x.Message? && x in items
    ensures ReqCount(items, x.req) >= 1
    decreases |items|
  {
    if items[0] != x {
      PresentCounts(items[1..], x);
    }
  }

  lemma SendKeepsValid(c: Page, text: string)
    requires Valid(c) && Trimmed(JavaScript, text)
    ensures Valid(Send(c, text))
  {
    if text != "" {
      var d := Send(c, text);
      var added := [Message(User, Render(text)), Thinking(|c.posted|)];
      forall q: nat ensures ReqCount(d.items, q) == ReqCount(c.items, q) + (if q == |c.posted| then 1 else 0) {
        ReqCountAppend(c.items, added, q);
        var tail := [Thinking(|c.posted|)];
        assert added[1..] == tail && tail[1..] == [];
        assert ReqCount(tail, q) == (if q == |c.posted| then 1 else 0);
        assert ReqCount(added, q) == ReqCount(tail, q);
      }
    }
  }

  lemma SettledKeepsValid(c: Page, req: nat, outcome: Settlement)
    requires Valid(c)
    ensures Valid(OnSettled(c, req, outcome))
  {
    if Pending(c, req) {
      var d := OnSettled(c, req, outcome);
      var rest := Without(c.items, Thinking(req));
      PresentCounts(c.items, Thinking(req));
      var added := d.items[|rest|..];
      assert d.items == rest + added;
      forall q: nat ensures ReqCount(d.items, q) <= 1 && (q >= |d.posted| ==> ReqCount(d.items, q) == 0) {
        ReqCountAppend(rest, added, q);
        assert added[1..] == [];
      }
    }
  }

  /** On a valid page a placeholder occurs once, so settling its request
      takes out that one item, keeps every other item in its place and
      order, and adds one item at the end. */
  lemma SettledReplacesPlaceholder(c: Page, req: nat, outcome: Settlement, i: nat)
    requires Valid(c) && i < |c.items| && c.items[i] == Thinking(req)
    ensures var d := OnSettled(c, req, outcome);
            |d.items| == |c.items| && d.items[..|d.items| - 1] == c.items[..i] + c.items[i + 1..]
  {
    var x := Thinking(req);
    ItemsAround(c.items, i);
    ReqCountAppend(c.items[..i], [x] + c.items[i + 1..], req);
    ReqCountAppend([x], c.items[i + 1..], req);
    assert [x][1..] == [];
    if x in c.items[..i] {
      PresentCounts(c.items[..i], x);
    }
    if x in c.items[i + 1..] {
      PresentCounts(c.items[i + 1..], x);
    }
    WithoutOnly(c.items, i);
    assert Pending(c, req) by {
      assert c.items[i] in c.items;
    }
  }

  lemma TickKeepsValid(c: Page, req: nat)
    requires Valid(c)
    ensures Valid(OnRevealTick(c, req))
  {
    var d := OnRevealTick(c, req);
    forall it | it in d.items && it.Answer? ensures Interval.Consistent(it.progress) {
      var k :| 0 <= k < |d.items| && d.items[k] == it;
      assert c.items[k] in c.items;
    }
  }

  /** Every event keeps the page valid. */
  lemma StepKeepsValid(c: Page, e: Event)
    requires Valid(c)
    ensures Valid(Step(c, e))
  {
    match e
    case Submit =>
      if c.ack && !AllSpace(JavaScript, c.input) {
        var c' := if c.isRecognizing && c.canRecognize then c.(commands := c.commands + [StopCapture]) else c;
        SendKeepsValid(c', Trim(JavaScript, c.input));
      }
    case CaptureEnded =>
      if c.canRecognize {
        SendKeepsValid(c.(isRecognizing := false, micLabel := MicIcon), Trim(JavaScript, c.input));
      }
    case Settled(req, outcome) => SettledKeepsValid(c, req, outcome);
    case RevealTick(req) => TickKeepsValid(c, req);
    case _ =>
  }

  /** Submitting without the acknowledgement, or with blank input, sends
      nothing and adds no message. */
  lemma SubmitBlocked(c: Page)
    requires !c.ack || AllSpace(JavaScript, c.input)
    ensures Step(c, Submit).posted == c.posted && Step(c, Submit).items == c.items
  {
  }

  /** A capture that ends after a successful submit finds the input
      cleared, so the text is sent once, not twice. */
  lemma SubmitThenCaptureEndSendsOnce(c: Page)
    requires c.ack && !AllSpace(JavaScript, c.input)
    ensures Step(Step(c, Submit), CaptureEnded).posted == c.posted + [Trim(JavaScript, c.input)]
  {
    SubmitSends(c);
    BlankCaptureEndSendsNothing(Step(c, Submit));
  }

  lemma SubmitSends(c: Page)
    requires c.ack && !AllSpace(JavaScript, c.input)
    ensures Step(c, Submit).posted == c.posted + [Trim(JavaScript, c.input)]
    ensures Step(c, Submit).input == ""
  {
  }

  lemma BlankCaptureEndSendsNothing(c: Page)
    requires AllSpace(JavaScript, c.input)
    ensures Step(c, CaptureEnded).posted == c.posted
  {
  }

  /** Speech capture sends its text whether or not the acknowledgement
      checkbox is ticked. */
  lemma CaptureSendsWithoutAck(c: Page)
    requires c.canRecognize && !c.ack && !AllSpace(JavaScript, c.input)
    ensures Step(c, CaptureEnded).posted == c.posted + [Trim(JavaScript, c.input)]
    ensures Step(c, Submit).posted == c.posted
  {
  }

  /** A delivered reply with segments ends up shown whole: after one firing
      per segment the request's item shows every segment in order, and its
      interval is cleared. */
  lemma DeliveredReplyIsRevealed(c: Page, req: nat, reply: string)
    requires Pending(c, req) && |Segments(reply)| > 0
    ensures var d := OnSettled(c, req, Delivered(reply));
            var e := Ticks(d, req, |Segments(reply)|);
            && |e.items| == |d.items|
            && e.items[|d.items| - 1].Answer?
            && e.items[|d.items| - 1].progress.shown == Segments(reply)
            && !e.items[|d.items| - 1].progress.running
  {
    var d := OnSettled(c, req, Delivered(reply));
    var parts := Segments(reply);
    TicksRunReveal(d, req, |parts|, |d.items| - 1, Interval.Start(parts));
    Interval.AfterTicks(parts, |parts|, c.tts);
  }

  /** The microphone toggles: a click while idle asks to start; once the
      recogniser reports that it started, the next click asks to stop. */
  lemma MicToggles(c: Page)
    requires c.canRecognize && !c.isRecognizing
    ensures Step(Step(Step(c, MicClick), CaptureStarted), MicClick).commands == c.commands + [StartCapture, StopCapture]
    ensures Step(Step(c, MicClick), CaptureStarted).isRecognizing
  {
  }

  /** The failure warning renders as one paragraph in the error style. */
  lemma FailureTextIsAlert(text: string)
    requires text == FailureText
    ensures Render(text) == [Paragraph(text, Alert)]
  {
    assert StyleOf(text) == Alert by {
      assert text[..2] == Warning;
    }
    RenderTrimmedLine(text);
  }
}

=== FILE: display.dfy ===
/** How the client cuts a text into display paragraphs, and which paragraphs
    it paints in the warning style (healthcare-chatbot/static/script.js,
    `appendMessage` and the reply handling of `sendMessage`).

    Both places evaluate `text.split(/\n\s*\n|\n/)`, trim every piece and
    drop the pieces left empty. The model states this as "split on every
    line feed, trim, keep the non-empty pieces" (`Segments`), and keeps the
    regular-expression split as written (`RegexSplit`) only to prove the two
    agree (`RegexSplitAgrees`): the extra text the first alternative
    `\n\s*\n` swallows between two line feeds is whitespace only, and split
    on single line feeds it forms pieces that trim to empty and are dropped. */
module Display {
  import opened Text

  /** Index of the first line feed in `s`, or `|s|` when there is none. */
  function NextNewline(s: string): (i: nat)
    ensures i <= |s|
    ensures i < |s| ==> s[i] == '\n'
    ensures forall k :: 0 <= k < i ==> s[k] != '\n'
  {
    if |s| == 0 || s[0] == '\n' then 0 else 1 + NextNewline(s[1..])
  }

  lemma NextNewlineIs(s: string, i: nat)
    requires i <= |s|
    requires i < |s| ==> s[i] == '\n'
    requires forall k :: 0 <= k < i ==> s[k] != '\n'
    ensures NextNewline(s) == i
  {
  }

  /** `s.split("\n")`: the pieces between line feeds, at least one. */
  function Lines(s: string): (r: seq<string>)
    ensures |r| >= 1
    decreases |s|
  {
    var i := NextNewline(s);
    if i == |s| then [s] else [s[..i]] + Lines(s[i + 1..])
  }

  /** One step of the split: the piece before the first line feed, then the rest. */
  lemma LinesUnfold(s: string, i: nat)
    requires i == NextNewline(s) < |s|
    ensures Lines(s) == [s[..i]] + Lines(s[i + 1..])
  {
  }

  lemma LinesOfOneLine(s: string)
    requires '\n' !in s
    ensures Lines(s) == [s]
  {
    NextNewlineIs(s, |s|);
  }

  /** No piece of the split contains a line feed. */
  lemma {:induction false} LinesHaveNoNewline(s: string)
    ensures forall k :: 0 <= k < |Lines(s)| ==> '\n' !in Lines(s)[k]
    decreases |s|
  {
    var i := NextNewline(s);
    assert '\n' !in s[..i];
    if i < |s| {
      LinesUnfold(s, i);
      LinesHaveNoNewline(s[i + 1..]);
    }
  }

  /** `pieces.join("\n")`. */
  function JoinLines(pieces: seq<string>): string
    requires |pieces| >= 1
  {
    if |pieces| == 1 then pieces[0] else pieces[0] + "\n" + JoinLines(pieces[1..])
  }

  lemma JoinLinesCons(p: string, rest: seq<string>)
    requires |rest| >= 1
    ensures JoinLines([p] + rest) == p + "\n" + JoinLines(rest)
  {
    assert ([p] + rest)[1..] == rest;
  }

  /** A text is the part before one of its line feeds, the line feed, and the part after. */
  lemma SplitAround(s: string, i: nat)
    requires i < |s| && s[i] == '\n'
    ensures s == s[..i] + "\n" + s[i + 1..]
  {
  }

  /** Splitting and re-joining on line feeds gives the text back. */
  lemma {:induction false} JoinLinesOfLines(s: string)
    ensures JoinLines(Lines(s)) == s
    decreases |s|
  {
    var i := NextNewline(s);
    if i < |s| {
      LinesUnfold(s, i);
      JoinLinesCons(s[..i], Lines(s[i + 1..]));
      JoinLinesOfLines(s[i + 1..]);
      SplitAround(s, i);
    }
  }

  /** The first line feed of `a + b` is the first of `a`, or else the first of `b`. */
  lemma NextNewlineAppend(a: string, b: string)
    ensures NextNewline(a + b) == if NextNewline(a) < |a| then NextNewline(a) else |a| + NextNewline(b)
  {
    var s := a + b;
    var i := if NextNewline(a) < |a| then NextNewline(a) else |a| + NextNewline(b);
    assert forall k :: 0 <= k < |a| ==> s[k] == a[k];
    assert forall k :: |a| <= k < |s| ==> s[k] == b[k - |a|];
    NextNewlineIs(s, i);
  }

  /** A line feed splits the text into the lines before it and the lines after it. */
  lemma {:induction false} LinesAppend(a: string, b: string)
    ensures Lines(a + "\n" + b) == Lines(a) + Lines(b)
    decreases |a|
  {
    var tail := "\n" + b;
    var s := a + tail;
    assert a + "\n" + b == s;
    var i := NextNewline(a);
    NextNewlineAppend(a, tail);
    LinesUnfold(s, i);
    if i == |a| {
      assert s[..i] == a;
      assert s[i + 1..] == b;
      LinesOfOneLine(a);
    } else {
      var a' := a[i + 1..];
      assert s[..i] == a[..i];
      assert s[i + 1..] == a' + "\n" + b;
      calc {
        Lines(s);
        [a[..i]] + Lines(a' + "\n" + b);
        { LinesAppend(a', b); }
        [a[..i]] + (Lines(a') + Lines(b));
        ([a[..i]] + Lines(a')) + Lines(b);
        { LinesUnfold(a, i); }
        Lines(a) + Lines(b);
      }
    }
  }

  /** Joining pieces free of line feeds and splitting again gives the pieces back. */
  lemma {:induction false} LinesOfJoinLines(pieces: seq<string>)
    requires |pieces| >= 1
    requires forall k :: 0 <= k < |pieces| ==> '\n' !in pieces[k]
    ensures Lines(JoinLines(pieces)) == pieces
    decreases |pieces|
  {
    var p := pieces[0];
    LinesOfOneLine(p);
    if |pieces| > 1 {
      var rest := pieces[1..];
      assert JoinLines(pieces) == p + "\n" + JoinLines(rest);
      LinesAppend(p, JoinLines(rest));
      LinesOfJoinLines(rest);
      assert pieces == [p] + rest;
    }
  }

  /** `.map(s => s.trim()).filter(Boolean)`: trim every piece, keep the non-empty ones. */
  function Clean(pieces: seq<string>): (r: seq<string>)
    ensures |r| <= |pieces|
    ensures forall k :: 0 <= k < |r| ==> r[k] != "" && Trimmed(JavaScript, r[k])
  {
    if |pieces| == 0 then [] else Kept(pieces[0]) + Clean(pieces[1..])
  }

  /** What cleaning keeps of one piece. */
  function Kept(piece: string): (r: seq<string>)
    ensures |r| <= 1
    ensures forall k :: 0 <= k < |r| ==> r[k] != "" && Trimmed(JavaScript, r[k])
  {
    var t := Trim(JavaScript, piece);
    if t == "" then [] else [t]
  }

  /** Every kept piece is the trim of a piece: trimming adds no line feed. */
  lemma {:induction false} CleanHasNoNewline(pieces: seq<string>)
    requires forall k :: 0 <= k < |pieces| ==> '\n' !in pieces[k]
    ensures forall k :: 0 <= k < |Clean(pieces)| ==> '\n' !in Clean(pieces)[k]
    decreases |pieces|
  {
    if |pieces| > 0 {
      var t := Trim(JavaScript, pieces[0]);
      assert forall c :: c in t ==> c in pieces[0];
      CleanHasNoNewline(pieces[1..]);
    }
  }

  /** Cleaning keeps exactly the non-empty trims: every piece whose trim is
      non-empty contributes that trim, and every kept piece is the trim of
      some piece. */
  lemma {:induction false} CleanKeepsTrims(pieces: seq<string>)
    ensures forall j :: 0 <= j < |pieces| && Trim(JavaScript, pieces[j]) != "" ==> Trim(JavaScript, pieces[j]) in Clean(pieces)
    ensures forall k :: 0 <= k < |Clean(pieces)| ==> exists j :: 0 <= j < |pieces| && Clean(pieces)[k] == Trim(JavaScript, pieces[j])
    decreases |pieces|
  {
    if |pieces| > 0 {
      var head, rest := Kept(pieces[0]), Clean(pieces[1..]);
      CleanKeepsTrims(pieces[1..]);
      CleanUnfold(pieces);
      assert Clean(pieces) == head + rest;
      forall k | 0 <= k < |Clean(pieces)|
        ensures exists j :: 0 <= j < |pieces| && Clean(pieces)[k] == Trim(JavaScript, pieces[j])
      {
        if k < |head| {
          assert (head + rest)[k] == Trim(JavaScript, pieces[0]);
        } else {
          var j :| 0 <= j < |pieces[1..]| && rest[k - |head|] == Trim(JavaScript, pieces[1..][j]);
          assert (head + rest)[k] == Trim(JavaScript, pieces[j + 1]);
        }
      }
      forall j | 0 <= j < |pieces| && Trim(JavaScript, pieces[j]) != ""
        ensures Trim(JavaScript, pieces[j]) in Clean(pieces)
      {
        if j == 0 {
          assert head == [Trim(JavaScript, pieces[0])];
        } else {
          assert pieces[j] == pieces[1..][j - 1];
        }
      }
    } else {
      assert |Clean(pieces)| == 0;
    }
  }

  lemma CleanCons(x: string, rest: seq<string>)
    ensures Clean([x] + rest) == Kept(x) + Clean(rest)
  {
    assert ([x] + rest)[1..] == rest;
  }

  lemma CleanUnfold(a: seq<string>)
    requires |a| > 0
    ensures Clean(a) == Kept(a[0]) + Clean(a[1..])
  {
  }

  lemma CleanAppendStep(a: seq<string>, b: seq<string>)
    requires |a| > 0
    ensures Clean(a + b) == Kept(a[0]) + Clean(a[1..] + b)
  {
    assert (a + b)[1..] == a[1..] + b;
  }

  lemma ConcatAssoc<T>(x: seq<T>, y: seq<T>, z: seq<T>)
    ensures x + (y + z) == (x + y) + z
  {
  }

  /** Cleaning acts piece by piece, so it keeps the pieces' order. */
  lemma {:induction false} CleanAppend(a: seq<string>, b: seq<string>)
    ensures Clean(a + b) == Clean(a) + Clean(b)
    decreases |a|
  {
    if |a| == 0 {
      assert a + b == b;
    } else {
      CleanAppendStep(a, b);
      CleanAppend(a[1..], b);
      CleanUnfold(a);
      ConcatAssoc(Kept(a[0]), Clean(a[1..]), Clean(b));
    }
  }

  /** The display segments of a text (script.js lines 22-25 and 108-111). */
  function Segments(text: string): (r: seq<string>)
    ensures forall k :: 0 <= k < |r| ==> r[k] != "" && Trimmed(JavaScript, r[k]) && '\n' !in r[k]
    ensures |r| <= |Lines(text)|
  {
    LinesHaveNoNewline(text);
    CleanHasNoNewline(Lines(text));
    Clean(Lines(text))
  }

  /** A text without a line feed is one segment, its trim, unless that is empty. */
  lemma SegmentsOfOneLine(text: string)
    requires '\n' !in text
    ensures Segments(text) == if Trim(JavaScript, text) == "" then [] else [Trim(JavaScript, text)]
  {
    assert NextNewline(text) == |text|;
  }

  /** Segments of text around a line feed are the segments before it followed by
      the segments after it: order is preserved and nothing crosses a line. */
  lemma SegmentsAppend(a: string, b: string)
    ensures Segments(a + "\n" + b) == Segments(a) + Segments(b)
  {
    LinesAppend(a, b);
    CleanAppend(Lines(a), Lines(b));
  }

  /** Text that is whitespace only has no segments. */
  lemma {:induction false} SegmentsOfSpace(w: string)
    requires AllSpace(JavaScript, w)
    ensures Segments(w) == []
    decreases |w|
  {
    var i := NextNewline(w);
    assert AllSpace(JavaScript, w[..i]);
    if i < |w| {
      assert AllSpace(JavaScript, w[i + 1..]);
      SegmentsOfSpace(w[i + 1..]);
    }
  }

  /** Index of the last line feed in `t`, or -1 when there is none. */
  function LastNewline(t: string): (j: int)
    ensures -1 <= j < |t|
    ensures j >= 0 ==> t[j] == '\n'
    ensures forall k :: j < k < |t| ==> t[k] != '\n'
  {
    if |t| == 0 then -1
    else if t[|t| - 1] == '\n' then |t| - 1
    else LastNewline(t[..|t| - 1])
  }

  /** End of the separator `/\n\s*\n|\n/` matches at the line feed `s[q]`.
      The greedy `\s*` first takes the whole whitespace run after `s[q]` and
      then gives characters back until a line feed follows; the run's last
      line feed therefore ends the match. Without one, the second
      alternative matches the single line feed. */
  function SeparatorEnd(s: string, q: nat): (e: nat)
    requires q < |s| && s[q] == '\n'
    ensures q < e <= |s|
    ensures s[e - 1] == '\n'
    ensures forall k :: q < k < e - 1 ==> IsSpace(JavaScript, s[k])
    ensures forall k :: e <= k < q + 1 + Lead(JavaScript, s[q + 1..]) ==> s[k] != '\n'
  {
    var run := s[q + 1..][..Lead(JavaScript, s[q + 1..])];
    var j := LastNewline(run);
    assert forall k :: 0 <= k < |run| ==> s[q + 1 + k] == run[k];
    assert forall k :: 0 <= k < |run| ==> IsSpace(JavaScript, run[k]);
    q + 2 + j
  }

  /** `s.split(/\n\s*\n|\n/)` as the JavaScript engine evaluates it: the
      search for the next separator starts where the last one ended, and a
      separator can only start at a line feed. */
  function RegexSplit(s: string): (r: seq<string>)
    ensures |r| >= 1
    decreases |s|
  {
    var q := NextNewline(s);
    if q == |s| then [s] else [s[..q]] + RegexSplit(s[SeparatorEnd(s, q)..])
  }

  lemma RegexSplitUnfold(s: string, q: nat, e: nat)
    requires q == NextNewline(s) < |s| && e == SeparatorEnd(s, q)
    ensures RegexSplit(s) == [s[..q]] + RegexSplit(s[e..])
  {
  }

  /** Trimming and dropping empty pieces erases the difference between the
      regular-expression split and the split on single line feeds. */
  lemma {:induction false} RegexSplitAgrees(s: string)
    ensures Clean(RegexSplit(s)) == Segments(s)
    decreases |s|
  {
    var q := NextNewline(s);
    if q < |s| {
      var e := SeparatorEnd(s, q);
      var head := s[..q];
      calc {
        Clean(RegexSplit(s));
        { RegexSplitUnfold(s, q, e); }
        Clean([head] + RegexSplit(s[e..]));
        { CleanCons(head, RegexSplit(s[e..])); }
        Kept(head) + Clean(RegexSplit(s[e..]));
        { RegexSplitAgrees(s[e..]); }
        Kept(head) + Segments(s[e..]);
        { SkipSeparator(s, q, e); }
        Kept(head) + Segments(s[q + 1..]);
        Kept(head) + Clean(Lines(s[q + 1..]));
        { CleanCons(head, Lines(s[q + 1..])); }
        Clean([head] + Lines(s[q + 1..]));
        { LinesUnfold(s, q); }
        Clean(Lines(s));
      }
    }
  }

  /** Between the two line feeds of a separator there are only blank lines. */
  lemma SkipSeparator(s: string, q: nat, e: nat)
    requires q < e <= |s| && s[e - 1] == '\n'
    requires forall k :: q < k < e - 1 ==> IsSpace(JavaScript, s[k])
    ensures Segments(s[q + 1..]) == Segments(s[e..])
  {
    if e > q + 1 {
      var w := s[q + 1..e - 1];
      assert s[q + 1..] == w + "\n" + s[e..];
      SegmentsAppend(w, s[e..]);
      SegmentsOfSpace(w);
    }
  }

  datatype Style = Plain | Alert

  /** One `<p>` of a rendered message: its text and whether it is painted
      in the bold red error style. */
  datatype Paragraph = Paragraph(text: string, style: Style)

  function StyleOf(segment: string): Style {
    if StartsWith(segment, Warning) then Alert else Plain
  }

  /** One paragraph per segment, each styled by how it starts. */
  function Paint(segs: seq<string>): (r: seq<Paragraph>)
    ensures |r| == |segs|
    ensures forall k :: 0 <= k < |r| ==> r[k].text == segs[k]
    ensures forall k :: 0 <= k < |r| ==> (r[k].style == Alert <==> StartsWith(r[k].text, Warning))
  {
    seq(|segs|, k requires 0 <= k < |segs| => Paragraph(segs[k], StyleOf(segs[k])))
  }

  lemma PaintAppend(x: seq<string>, y: seq<string>)
    ensures Paint(x + y) == Paint(x) + Paint(y)
  {
    var l := Paint(x + y);
    var r := Paint(x) + Paint(y);
    assert |l| == |r|;
    forall k | 0 <= k < |l| ensures l[k] == r[k] {
      if k < |x| {
        assert (x + y)[k] == x[k];
      } else {
        assert (x + y)[k] == y[k - |x|];
      }
    }
  }

  /** The paragraphs `appendMessage` builds for a text (script.js lines 22-33). */
  function Render(text: string): (r: seq<Paragraph>)
    ensures |r| == |Segments(text)|
    ensures forall k :: 0 <= k < |r| ==> r[k].text == Segments(text)[k]
    ensures forall k :: 0 <= k < |r| ==> (r[k].style == Alert <==> StartsWith(r[k].text, Warning))
  {
    Paint(Segments(text))
  }

  /** Rendering follows the text's lines: paragraphs before a line feed come first. */
  lemma RenderAppend(a: string, b: string)
    ensures Render(a + "\n" + b) == Render(a) + Render(b)
  {
    SegmentsAppend(a, b);
    PaintAppend(Segments(a), Segments(b));
  }

  /** A single line with nothing to trim is its own only segment. */
  lemma SegmentsOfTrimmedLine(line: string)
    requires '\n' !in line && line != "" && Trimmed(JavaScript, line)
    ensures Segments(line) == [line]
  {
    SegmentsOfOneLine(line);
    TrimUnique(JavaScript, "", line, "");
    assert "" + line + "" == line;
  }

  /** A single line with nothing to trim renders as one paragraph. */
  lemma RenderTrimmedLine(line: string)
    requires '\n' !in line && line != "" && Trimmed(JavaScript, line)
    ensures Render(line) == [Paragraph(line, StyleOf(line))]
  {
    SegmentsOfTrimmedLine(line);
  }

  /** Three lines with nothing to trim, separated by a blank line and a line
      break, are three segments, in order. */
  lemma SegmentsOfThreeLines(a: string, b: string, c: string)
    requires '\n' !in a && a != "" && Trimmed(JavaScript, a)
    requires '\n' !in b && b != "" && Trimmed(JavaScript, b)
    requires '\n' !in c && c != "" && Trimmed(JavaScript, c)
    ensures Segments(a + "\n\n" + b + "\n" + c) == [a, b, c]
  {
    var bc := b + "\n" + c;
    var t := a + "\n" + ("" + "\n" + bc);
    assert a + "\n\n" + b + "\n" + c == t by {
      assert "\n\n" == "\n" + ("" + "\n");
    }
    calc {
      Segments(t);
      { SegmentsAppend(a, "" + "\n" + bc); }
      Segments(a) + Segments("" + "\n" + bc);
      { SegmentsAppend("", bc); }
      Segments(a) + (Segments("") + Segments(bc));
      { SegmentsAppend(b, c); }
      Segments(a) + (Segments("") + (Segments(b) + Segments(c)));
      { SegmentsOfTrimmedLine(a); SegmentsOfTrimmedLine(b); SegmentsOfTrimmedLine(c); SegmentsOfSpace(""); }
      [a] + ([] + ([b] + [c]));
    }
  }

  /** The reply `"A\n\nB\nC"` has the three segments A, B, C, all plain. */
  lemma RenderExample(reply: string)
    requires reply == "A\n\nB\nC"
    ensures Segments(reply) == ["A", "B", "C"]
    ensures forall k :: 0 <= k < 3 ==> Render(reply)[k].style == Plain
  {
    ExampleLines();
    SegmentsOfThreeLines("A", "B", "C");
    assert Render(reply) == Paint(["A", "B", "C"]);
  }

  lemma ExampleLines()
    ensures "A" + "\n\n" + "B" + "\n" + "C" == "A\n\nB\nC"
  {
  }
}

=== FILE: exchange.dfy ===
/** The single `/api/chat` exchange seen from both ends: what the server
    answers to the messages the page actually sends, and how the page shows
    the server's fixed replies. */
module Exchange {
  import opened Text
  import opened Display
  import Interval
  import opened Server
  import opened Client

  /** The page after a sequence of browser events. */
  function Replay(c: Page, events: seq<Event>): Page
    decreases |events|
  {
    if |events| == 0 then c else Replay(Step(c, events[0]), events[1..])
  }

  /** Every page reachable from the initial one is valid. */
  lemma {:induction false} ReplayKeepsValid(c: Page, events: seq<Event>)
    requires Valid(c)
    ensures Valid(Replay(c, events))
    decreases |events|
  {
    if |events| > 0 {
      StepKeepsValid(c, events[0]);
      ReplayKeepsValid(Step(c, events[0]), events[1..]);
    }
  }

  /** The JSON body `sendMessage` posts: `{"message": text}`. */
  function RequestBody(text: string): (body: Body)
    ensures Readable(body) && MessageOf(body) == text
  {
    var fields := map["message" := JStr(text)];
    assert "message" in fields && |fields| == 1;
    Parsed(JObj(fields))
  }

  /** A character Python strips and JavaScript does not trim: the
      information separators U+001C to U+001F and the next-line U+0085. */
  predicate PythonOnlySpace(c: char) {
    '\U{001C}' <= c <= '\U{001F}' || c == '\U{0085}'
  }

  /** The page only sends non-empty text with no JavaScript whitespace at
      either end. The server strips it by Python's rules instead, so it
      answers with the empty-message prompt exactly when the text is Python
      whitespace only, and that needs a first character that only Python
      counts as whitespace. */
  lemma SentMessageReplies(events: seq<Event>, canRecognize: bool, ack: bool, tts: bool, k: nat, g: Generation)
    requires k < |Replay(Init(canRecognize, ack, tts), events).posted|
    ensures var m := Replay(Init(canRecognize, ack, tts), events).posted[k];
            && m != "" && Trimmed(JavaScript, m)
            && Chat(RequestBody(m), g)
               == Reply(if AllSpace(Python, m) then EmptyPrompt
                        else if IsEmergency(m) then EmergencyReply
                        else ModelReply(g))
            && (AllSpace(Python, m) ==> PythonOnlySpace(m[0]))
  {
    var c := Replay(Init(canRecognize, ack, tts), events);
    ReplayKeepsValid(Init(canRecognize, ack, tts), events);
    var m := c.posted[k];
    assert !IsSpace(JavaScript, m[0]);
    var fields := map["message" := JStr(m)];
    assert "message" in fields && |fields| == 1;
  }

  /** Typed alone and submitted with the acknowledgement ticked, a
      character JavaScript does not count as whitespace is sent as is. */
  lemma PageSendsCharacter(ch: char)
    requires !IsSpace(JavaScript, ch)
    ensures Replay(Init(false, true, false), [Type([ch]), Submit]).posted == [[ch]]
  {
    var c := Init(false, true, false);
    ReplayTwo(c, Type([ch]), Submit);
    assert !IsSpace(JavaScript, [ch][0]);
    TrimUnique(JavaScript, "", [ch], "");
    assert "" + [ch] + "" == [ch];
  }

  /** A posted message that is Python whitespace only gets the prompt. */
  lemma ServerPromptsBlank(m: string, g: Generation)
    requires AllSpace(Python, m)
    ensures Chat(RequestBody(m), g) == Reply(EmptyPrompt)
  {
    var fields := map["message" := JStr(m)];
    assert "message" in fields && |fields| == 1;
  }

  /** The page and the server disagree on the characters only Python
      strips: typed alone and submitted, such a character is sent, and the
      server answers it with the empty-message prompt. */
  lemma PythonOnlySpaceGetsPrompt(ch: char, g: Generation)
    requires PythonOnlySpace(ch)
    ensures Replay(Init(false, true, false), [Type([ch]), Submit]).posted == [[ch]]
    ensures Chat(RequestBody([ch]), g) == Reply(EmptyPrompt)
  {
    PageSendsCharacter(ch);
    ServerPromptsBlank([ch], g);
  }

  lemma ReplayTwo(c: Page, e1: Event, e2: Event)
    ensures Replay(c, [e1, e2]) == Step(Step(c, e1), e2)
  {
    assert [e1, e2][1..] == [e2];
    assert [e2][1..] == [];
    assert Replay(Step(c, e1), [e2]) == Replay(Step(Step(c, e1), e2), []);
  }

  /** The emergency referral reaches the page as one segment that starts
      with the warning glyph; one firing of the reveal shows it whole and
      clears the interval. It is not painted in the error style: only
      `appendMessage` applies that style, and the reveal does not use it. */
  lemma EmergencyReplyRevealsWhole(reply: string, tts: bool)
    requires reply == EmergencyReply
    ensures Segments(reply) == [reply]
    ensures StartsWith(reply, Warning)
    ensures Interval.Run(Interval.Start(Segments(reply)), 1, tts).shown == [reply]
    ensures !Interval.Run(Interval.Start(Segments(reply)), 1, tts).running
  {
    EmergencyReplyShape();
    SegmentsOfTrimmedLine(reply);
    Interval.AfterTicks([reply], 1, tts);
  }

  /** A model text of whitespace only strips to an empty reply; the page
      then finds no segment, and its reveal shows a single blank paragraph. */
  lemma BlankModelTextShowsBlankParagraph(message: string, text: string, tts: bool)
    requires !AllSpace(Python, message) && !IsEmergency(message)
    requires text != "" && AllSpace(Python, text)
    ensures Route(message, Answered(text)) == ""
    ensures Segments(Route(message, Answered(text))) == []
    ensures Interval.Run(Interval.Start(Segments(Route(message, Answered(text)))), 1, tts).shown == [""]
  {
    SegmentsOfSpace("");
    Interval.EmptyReplyShowsOneBlank(1, tts);
  }
}

=== FILE: interval.dfy ===
/** The paragraph-by-paragraph reveal of an assistant reply
    (healthcare-chatbot/static/script.js lines 113-123).

    `sendMessage` starts an interval whose callback appends `parts[idx]` to
    the assistant's list item, asks for it to be spoken, increments `idx` and
    clears the interval once `idx >= parts.length`. The model replaces the
    350 ms timer by explicit ticks: `Tick` is one firing of the callback. */
module Interval {

  /** The reveal of one reply: the segments to show, the callback's counter,
      the paragraphs appended so far, the speech requests issued so far, and
      whether the interval is still set. */
  datatype State = State(parts: seq<string>, idx: nat, shown: seq<string>, spoken: seq<string>, running: bool)

  /** The states the callback can actually reach from `Start`. With no
      parts at all the first firing still appends one paragraph. */
  predicate Consistent(s: State) {
    if |s.parts| == 0 then
      (s.idx == 0 && s.shown == [] && s.running) || (s.idx == 1 && s.shown == [""] && !s.running)
    else
      s.idx <= |s.parts| && s.shown == s.parts[..s.idx] && (s.running <==> s.idx < |s.parts|)
  }

  /** The interval as `setInterval` leaves it: nothing shown yet. */
  function Start(parts: seq<string>): (s: State)
    ensures Consistent(s) && s.running && s.shown == [] && s.spoken == []
  {
    State(parts, 0, [], [], true)
  }

  /** `parts[idx]` as the callback uses it. Past the end JavaScript yields
      `undefined`; assigned to `textContent` it gives an empty paragraph, and
      passed to `SpeechSynthesisUtterance` it gives an empty utterance. */
  function PartAt(parts: seq<string>, i: nat): string {
    if i < |parts| then parts[i] else ""
  }

  /** One firing of the interval callback. `tts` is the state of the
      speech checkbox when it fires: `speak` does nothing when it is clear.
      A cleared interval never fires again. */
  function Tick(s: State, tts: bool): (t: State)
    ensures t.parts == s.parts
    ensures !s.running ==> t == s
    ensures s.running ==> |t.shown| == |s.shown| + 1 && t.shown[..|s.shown|] == s.shown
    ensures s.running ==> t.spoken == s.spoken + (if tts then [t.shown[|s.shown|]] else [])
    ensures Consistent(s) ==> Consistent(t)
  {
    if !s.running then s
    else
      var p := PartAt(s.parts, s.idx);
      var idx := s.idx + 1;
      var shown := s.shown + [p];
      assert |s.parts| > 0 && Consistent(s) ==> shown == s.parts[..idx];
      State(s.parts, idx, shown, if tts then s.spoken + [p] else s.spoken, idx < |s.parts|)
  }

  /** `n` firings with the speech checkbox held at `tts`. */
  function Run(s: State, n: nat, tts: bool): State
    decreases n
  {
    if n == 0 then s else Run(Tick(s, tts), n - 1, tts)
  }

  lemma RunUnfold(s: State, k: nat, tts: bool)
    requires k > 0
    ensures Run(s, k, tts) == Run(Tick(s, tts), k - 1, tts)
  {
  }

  /** The state `k` firings after `s` while parts remain: the next `k`
      parts are shown, and spoken when speech is on. */
  function Advanced(s: State, k: nat, tts: bool): State
    requires s.idx + k <= |s.parts|
  {
    State(s.parts, s.idx + k, s.parts[..s.idx + k],
          s.spoken + (if tts then s.parts[s.idx..s.idx + k] else []), s.idx + k < |s.parts|)
  }

  /** A firing while parts remain shows and speaks the next part. */
  lemma TickAdvances(s: State, tts: bool)
    requires Consistent(s) && s.idx < |s.parts|
    ensures Tick(s, tts) == Advanced(s, 1, tts)
  {
    assert s.parts[s.idx..s.idx + 1] == [s.parts[s.idx]];
  }

  /** Advancing by one and then by `k - 1` is advancing by `k`. */
  lemma AdvancedStep(s: State, k: nat, tts: bool)
    requires 0 < k && s.idx + k <= |s.parts|
    ensures Advanced(Advanced(s, 1, tts), k - 1, tts) == Advanced(s, k, tts)
  {
    var p, i, j := s.parts, s.idx, s.idx + k;
    if tts {
      calc {
        (s.spoken + p[i..i + 1]) + p[i + 1..j];
        { assert p[i..j] == p[i..i + 1] + p[i + 1..j]; }
        s.spoken + p[i..j];
      }
    } else {
      assert s.spoken + [] + [] == s.spoken;
    }
  }

  /** While parts remain, every firing shows the next part, in order, and
      speaks it exactly when speech is on. */
  lemma {:induction false} RunShowsNextParts(s: State, k: nat, tts: bool)
    requires Consistent(s) && |s.parts| > 0 && s.idx + k <= |s.parts|
    ensures Run(s, k, tts) == Advanced(s, k, tts)
    decreases k
  {
    if k == 0 {
      assert s.spoken + s.parts[s.idx..s.idx] == s.spoken;
    } else {
      var t := Advanced(s, 1, tts);
      RunUnfold(s, k, tts);
      TickAdvances(s, tts);
      RunShowsNextParts(t, k - 1, tts);
      AdvancedStep(s, k, tts);
    }
  }

  /** After k of the |parts| firings the reply shows its first k parts; after
      all of them it shows every part in order and the interval is cleared. */
  lemma AfterTicks(parts: seq<string>, k: nat, tts: bool)
    requires 0 < |parts| && k <= |parts|
    ensures Run(Start(parts), k, tts).shown == parts[..k]
    ensures Run(Start(parts), k, tts).spoken == (if tts then parts[..k] else [])
    ensures Run(Start(parts), k, tts).running <==> k < |parts|
  {
    RunShowsNextParts(Start(parts), k, tts);
  }

  /** Once the interval is cleared, further ticks change nothing. */
  lemma {:induction false} StoppedStaysStopped(s: State, n: nat, tts: bool)
    requires !s.running
    ensures Run(s, n, tts) == s
  {
    if n > 0 {
      StoppedStaysStopped(Tick(s, tts), n - 1, tts);
    }
  }

  /** A reply with no segments still gets one empty paragraph, after which
      the interval is cleared. */
  lemma EmptyReplyShowsOneBlank(n: nat, tts: bool)
    requires n >= 1
    ensures Run(Start([]), n, tts).shown == [""]
    ensures !Run(Start([]), n, tts).running
  {
    var t := Tick(Start([]), tts);
    StoppedStaysStopped(t, n - 1, tts);
  }

  /** Lets the interval fire until it clears itself and reports what the
      reply ended up showing and saying, and how many firings that took. */
  method RevealAll(parts: seq<string>, tts: bool) returns (shown: seq<string>, spoken: seq<string>, ticks: nat)
    ensures ticks == if |parts| == 0 then 1 else |parts|
    ensures shown == if |parts| == 0 then [""] else parts
    ensures spoken == if tts then shown else []
  {
    var s := Start(parts);
    ticks := 0;
    while s.running
      invariant Consistent(s) && s.parts == parts
      invariant ticks == s.idx
      invariant s.spoken == if tts then s.shown else []
      decreases (if |parts| == 0 then 1 else |parts|) - s.idx
    {
      s := Tick(s, tts);
      ticks := ticks + 1;
    }
    shown := s.shown;
    spoken := s.spoken;
  }
}

=== FILE: server.dfy ===
/** The Flask route `POST /api/chat` (healthcare-chatbot/app.py lines 19-64).

    The route reads the JSON body, strips the `message` field and answers,
    in this order: a prompt to type something when the message is empty, a
    fixed referral when the message names one of eight emergencies, and
    otherwise whatever the Gemini model makes of it. The call to Gemini is
    not modelled: its outcome is an input to the route (`Generation`). */
module Server {
  import opened Text

  /** A parsed JSON value. Numbers are kept as integers: only whether a
      number is zero matters to the route. */
  datatype Json =
    | JNull
    | JBool(b: bool)
    | JNum(n: int)
    | JStr(s: string)
    | JArr(elems: seq<Json>)
    | JObj(fields: map<string, Json>)

  /** The request body as `request.get_json(force=True)` sees it. */
  datatype Body = Unparsable | Parsed(value: Json)

  /** What the `try` block around the Gemini call produces: an exception
      (carrying `str(e)`), a falsy response object, a response whose `text`
      is `None`, or a response with a text. */
  datatype Generation = Raised(error: string) | NoResponse | NoText | Answered(text: string)

  /** The HTTP answer: the JSON object `{"reply": ...}`, or an error status
      Flask produces when the handler fails. */
  datatype Response = Reply(reply: string) | HttpError(status: nat)

  const EmptyPrompt: string := "Please enter a message."

  /** The referral, in pieces: the glyph, then the advice phrase by phrase. */
  const EmergencyReply: string :=
    Warning + " It sounds like" + " a medical emergency."
    + " Please call your" + " local emergency number"
    + " or visit the nearest" + " hospital immediately."

  const Fallback: string := "Sorry, I couldn" + "\U{2019}" + "t generate a reply right now."

  const ErrorPrefix: string := "Error contacting Gemini API: "

  const EmergencyPhrases: seq<string> := [
    "chest pain", "shortness of breath", "severe bleeding", "unconscious",
    "heart attack", "stroke", "bleeding heavily", "not breathing"
  ]

  /** `any(p in message.lower() for p in emergency_phrases)`. */
  predicate IsEmergency(message: string) {
    exists k :: 0 <= k < |EmergencyPhrases| && Contains(Lower(message), EmergencyPhrases[k])
  }

  /** Python truthiness of a JSON value, as `or {}` tests it. */
  predicate Truthy(j: Json) {
    match j
    case JNull => false
    case JBool(b) => b
    case JNum(n) => n != 0
    case JStr(s) => s != ""
    case JArr(elems) => |elems| > 0
    case JObj(fields) => |fields| > 0
  }

  /** The reply built from the model's outcome (app.py lines 58-62). */
  function ModelReply(g: Generation): (reply: string)
    ensures g.Raised? ==> StartsWith(reply, ErrorPrefix) && reply[|ErrorPrefix|..] == g.error
    ensures g.Answered? && g.text != "" ==> reply == Trim(Python, g.text)
    ensures g.Answered? && !AllSpace(Python, g.text) ==> reply != "" && Trimmed(Python, reply)
    ensures g.Answered? && g.text != "" && AllSpace(Python, g.text) ==> reply == ""
    ensures (g.NoResponse? || g.NoText? || (g.Answered? && g.text == "")) ==> reply == Fallback
  {
    match g
    case Raised(e) => ErrorPrefix + e
    case NoResponse => Fallback
    case NoText => Fallback
    case Answered(t) => if t != "" then Trim(Python, t) else Fallback
  }

  /** The decision of `chat()` once the message string is in hand (app.py
      lines 22-64): empty first, emergency second, the model last. */
  function Route(message: string, g: Generation): (reply: string)
    ensures AllSpace(Python, message) ==> reply == EmptyPrompt
    ensures !AllSpace(Python, message) && IsEmergency(message) ==> reply == EmergencyReply
    ensures !AllSpace(Python, message) && !IsEmergency(message) ==> reply == ModelReply(g)
  {
    var m := Trim(Python, message);
    EmergencyIgnoresStrip(message);
    if m == "" then EmptyPrompt
    else if IsEmergency(m) then EmergencyReply
    else ModelReply(g)
  }

  /** A request body the handler can read: valid JSON that is falsy (read
      as `{}`) or an object, whose `message`, if present, is a string. */
  predicate Readable(body: Body) {
    && body.Parsed?
    && (!Truthy(body.value) || body.value.JObj?)
    && (body.value.JObj? && "message" in body.value.fields ==> body.value.fields["message"].JStr?)
  }

  /** `data.get("message", "")` for a readable body. */
  function MessageOf(body: Body): (message: string)
    requires Readable(body)
    ensures message != "" ==> body.value.JObj? && "message" in body.value.fields
  {
    if body.value.JObj? && "message" in body.value.fields then body.value.fields["message"].s else ""
  }

  /** The whole handler. Unparsable JSON is rejected by Flask with 400; a
      truthy non-object body (`.get` on a list) or a non-string message
      (`.strip()` on it) raises inside the handler, which Flask turns into
      500. Every other request is answered with a reply object. */
  function Chat(body: Body, g: Generation): (r: Response)
    ensures r.Reply? <==> Readable(body)
    ensures r.HttpError? ==> (r.status == 400 <==> body.Unparsable?) && (r.status == 400 || r.status == 500)
    ensures r.Reply? ==> r.reply == Route(MessageOf(body), g)
  {
    match body
    case Unparsable => HttpError(400)
    case Parsed(v) =>
      var data := if Truthy(v) then v else JObj(map[]);
      if !data.JObj? then HttpError(500)
      else
        var message := if "message" in data.fields then data.fields["message"] else JStr("");
        if !message.JStr? then HttpError(500)
        else Reply(Route(message.s, g))
  }

  /** A body without a message, or with a blank one, always gets the prompt,
      whatever the model would have said. */
  lemma BlankMessageGetsPrompt(body: Body, g: Generation)
    requires Readable(body) && AllSpace(Python, MessageOf(body))
    ensures Chat(body, g) == Reply(EmptyPrompt)
  {
  }

  /** A blank or emergency message gets the same reply whatever the model
      would have produced: the model is not consulted. */
  lemma ModelNotConsulted(message: string, g1: Generation, g2: Generation)
    requires AllSpace(Python, message) || IsEmergency(message)
    ensures Route(message, g1) == Route(message, g2)
  {
  }

  /** Any other message is answered from the model: two different model
      outcomes give two different replies. */
  lemma ModelConsulted(message: string)
    requires !AllSpace(Python, message) && !IsEmergency(message)
    ensures Route(message, NoText) == Fallback
    ensures Route(message, Raised("")) == ErrorPrefix
    ensures Route(message, NoText) != Route(message, Raised(""))
  {
    assert ErrorPrefix + "" == ErrorPrefix;
    assert |Fallback| == 45 && |ErrorPrefix| == 29;
  }

  /** Every emergency phrase is non-empty and has nothing to strip. */
  lemma PhrasesAreTrimmed()
    ensures forall k :: 0 <= k < |EmergencyPhrases| ==> EmergencyPhrases[k] != "" && Trimmed(Python, EmergencyPhrases[k])
  {
  }

  /** A string without upper-case ASCII letters is its own lower-casing. */
  lemma LowerOfLowerCase(s: string)
    requires forall i :: 0 <= i < |s| ==> !('A' <= s[i] <= 'Z')
    ensures Lower(s) == s
  {
  }

  /** Every emergency phrase is already lower case, so it can match the
      lower-cased message whatever the message's letter case. */
  lemma PhrasesAreLowerCase()
    ensures forall k :: 0 <= k < |EmergencyPhrases| ==> Lower(EmergencyPhrases[k]) == EmergencyPhrases[k]
  {
    forall k | 0 <= k < |EmergencyPhrases| ensures Lower(EmergencyPhrases[k]) == EmergencyPhrases[k] {
      LowerOfLowerCase(EmergencyPhrases[k]);
    }
  }

  /** The referral's opening, middle and closing hold no line feed. */
  lemma ReferralOpeningOneLine()
    ensures '\n' !in Warning + " It sounds like" + " a medical emergency."
  {
    assert '\n' !in Warning;
    assert '\n' !in " It sounds like";
    assert '\n' !in " a medical emergency.";
  }

  lemma ReferralMiddleOneLine()
    ensures '\n' !in " Please call your" + " local emergency number"
  {
    assert '\n' !in " Please call your";
    assert '\n' !in " local emergency number";
  }

  lemma ReferralClosingOneLine()
    ensures '\n' !in " or visit the nearest" + " hospital immediately."
  {
    assert '\n' !in " or visit the nearest";
    assert '\n' !in " hospital immediately.";
  }

  /** The referral is one line that starts with the warning glyph and has
      nothing to strip. */
  lemma EmergencyReplyShape()
    ensures '\n' !in EmergencyReply && Trimmed(JavaScript, EmergencyReply)
    ensures StartsWith(EmergencyReply, Warning)
  {
    var opening := Warning + " It sounds like" + " a medical emergency.";
    var middle := " Please call your" + " local emergency number";
    var closing := " or visit the nearest" + " hospital immediately.";
    ReferralOpeningOneLine();
    ReferralMiddleOneLine();
    ReferralClosingOneLine();
    assert EmergencyReply == opening + middle + closing;
    assert closing[|closing| - 1] == '.';
    assert EmergencyReply[..2] == Warning;
  }

  // ---------------------------------------------------------------------
  // Properties of substring search under lower-casing and trimming.

  lemma LowerKeepsSpace(c: char)
    ensures IsSpace(Python, LowerChar(c)) <==> IsSpace(Python, c)
  {
  }

  lemma LowerSlice(s: string, i: nat, j: nat)
    requires i <= j <= |s|
    ensures Lower(s[i..j]) == Lower(s)[i..j]
  {
  }

  lemma LowerAppend(a: string, b: string)
    ensures Lower(a + b) == Lower(a) + Lower(b)
  {
  }

  lemma OccursInSlice(s: string, i: nat, j: nat, p: string, k: nat)
    requires i <= j <= |s|
    ensures OccursAt(s[i..j], p, k) <==> k + |p| <= j - i && OccursAt(s, p, i + k)
  {
    if k + |p| <= j - i {
      var a := s[i..j][k..k + |p|];
      var b := s[i + k..i + k + |p|];
      forall t | 0 <= t < |p| ensures a[t] == b[t] {}
    }
  }

  /** An occurrence inside a slice is an occurrence in the whole string. */
  lemma ContainsSlice(s: string, i: nat, j: nat, p: string)
    requires i <= j <= |s| && Contains(s[i..j], p)
    ensures Contains(s, p)
  {
    var k: nat :| k <= |s[i..j]| && OccursAt(s[i..j], p, k);
    OccursInSlice(s, i, j, p, k);
  }

  lemma OccursInWindow(s: string, i: nat, j: nat, p: string, k: nat)
    requires i <= k && k + |p| <= j <= |s| && OccursAt(s, p, k)
    ensures OccursAt(s[i..j], p, k - i)
  {
    OccursInSlice(s, i, j, p, k - i);
  }

  lemma OccursGivesContains(s: string, p: string, k: nat)
    requires OccursAt(s, p, k)
    ensures Contains(s, p)
  {
  }

  /** Where a word whose ends are not whitespace occurs in a text padded
      with whitespace: inside the padding. */
  lemma OccurrenceInsidePadding(a: string, m: string, b: string, p: string, k: nat)
    requires AllSpace(Python, a) && AllSpace(Python, b) && p != "" && Trimmed(Python, p)
    requires OccursAt(a + m + b, p, k)
    ensures |a| <= k && k + |p| <= |a| + |m|
  {
    var t := a + m + b;
    var last := k + |p| - 1;
    assert t[k..k + |p|][0] == t[k] && t[k..k + |p|][|p| - 1] == t[last];
    assert forall i :: 0 <= i < |a| ==> t[i] == a[i];
    assert forall i :: |a| + |m| <= i < |t| ==> t[i] == b[i - |a| - |m|];
  }

  /** Whitespace on both sides of a text adds no occurrence of a word whose
      ends are not whitespace, and removes none. */
  lemma ContainsPadded(a: string, m: string, b: string, p: string)
    requires AllSpace(Python, a) && AllSpace(Python, b) && p != "" && Trimmed(Python, p)
    ensures Contains(a + m + b, p) <==> Contains(m, p)
  {
    var t := a + m + b;
    if Contains(m, p) {
      ContainsExtends(m, a, b, p);
    }
    if Contains(t, p) {
      var k: nat :| k <= |t| && OccursAt(t, p, k);
      OccurrenceInsidePadding(a, m, b, p, k);
      OccursInWindow(t, |a|, |a| + |m|, p, k);
      assert t[|a|..|a| + |m|] == m;
      OccursGivesContains(m, p, k - |a|);
    }
  }

  lemma LowerOfSpace(w: string)
    requires AllSpace(Python, w)
    ensures AllSpace(Python, Lower(w))
  {
    forall i | 0 <= i < |w| ensures IsSpace(Python, Lower(w)[i]) {
      LowerKeepsSpace(w[i]);
    }
  }

  /** A trimmed, non-empty word occurs in the lower-cased text exactly when
      it occurs in the lower-cased stripped text. */
  lemma ContainsIgnoresStrip(s: string, p: string)
    requires p != "" && Trimmed(Python, p)
    ensures Contains(Lower(Trim(Python, s)), p) <==> Contains(Lower(s), p)
  {
    var pre, r, post := TrimSplits(Python, s);
    LowerAppend(pre + r, post);
    LowerAppend(pre, r);
    LowerOfSpace(pre);
    LowerOfSpace(post);
    ContainsPadded(Lower(pre), Lower(r), Lower(post), p);
  }

  /** Stripping the message never changes whether it is an emergency. */
  lemma EmergencyIgnoresStrip(message: string)
    ensures IsEmergency(Trim(Python, message)) <==> IsEmergency(message)
  {
    PhrasesAreTrimmed();
    forall k | 0 <= k < |EmergencyPhrases|
      ensures Contains(Lower(Trim(Python, message)), EmergencyPhrases[k]) <==> Contains(Lower(message), EmergencyPhrases[k])
    {
      ContainsIgnoresStrip(message, EmergencyPhrases[k]);
    }
  }

  /** Python's `str.upper()` on ASCII letters. */
  function UpperChar(c: char): char {
    if 'a' <= c <= 'z' then (c as int - 'a' as int + 'A' as int) as char else c
  }

  /** Letter case is invisible to the emergency check: a message with some
      ASCII letters switched to upper or to lower case is an emergency
      exactly when the original is. */
  lemma EmergencyIgnoresCase(message: string, recased: string)
    requires |recased| == |message|
    requires forall i :: 0 <= i < |message| ==>
               recased[i] == message[i] || recased[i] == UpperChar(message[i]) || recased[i] == LowerChar(message[i])
    ensures IsEmergency(recased) <==> IsEmergency(message)
  {
    assert Lower(recased) == Lower(message) by {
      forall i | 0 <= i < |message| ensures Lower(recased)[i] == Lower(message)[i] {
        assert LowerChar(UpperChar(message[i])) == LowerChar(message[i]);
        assert LowerChar(LowerChar(message[i])) == LowerChar(message[i]);
      }
    }
  }

  /** Containment is kept when text is added on either side. */
  lemma ContainsExtends(s: string, before: string, after: string, p: string)
    requires Contains(s, p)
    ensures Contains(before + s + after, p)
  {
    var t := before + s + after;
    assert t[|before|..|before| + |s|] == s;
    ContainsSlice(t, |before|, |before| + |s|, p);
  }

  /** More text around an emergency message keeps it an emergency, and the
      route then answers with the referral whatever the model says. */
  lemma EmergencyExtends(message: string, before: string, after: string, g: Generation)
    requires IsEmergency(message)
    ensures IsEmergency(before + message + after)
    ensures Route(before + message + after, g) == EmergencyReply
  {
    var k :| 0 <= k < |EmergencyPhrases| && Contains(Lower(message), EmergencyPhrases[k]);
    LowerAppend(before + message, after);
    LowerAppend(before, message);
    ContainsExtends(Lower(message), Lower(before), Lower(after), EmergencyPhrases[k]);
    var t := before + message + after;
    PhrasesAreTrimmed();
    var j: nat :| j <= |Lower(t)| && OccursAt(Lower(t), EmergencyPhrases[k], j);
    assert Lower(t)[j] == EmergencyPhrases[k][0];
    LowerKeepsSpace(t[j]);
    assert !AllSpace(Python, t);
  }
}

=== FILE: text.dfy ===
/** Character-level helpers shared by the browser client and the Flask server:
    whitespace, trimming, ASCII lower-casing, prefix and substring tests.

    The page trims with JavaScript's `String.prototype.trim` and splits with
    the regex class `\s`; the server strips with Python's `str.strip`. The
    two languages disagree on a few characters, so whitespace, and with it
    trimming, is defined per language. */
module Text {

  /** The warning glyph U+26A0 U+FE0F ("⚠️") that opens error texts on
      both sides of the exchange. */
  const Warning: string := "\U{26A0}\U{FE0F}"

  /** The language whose notion of whitespace applies: the page's
      JavaScript or the server's Python. */
  datatype Runtime = JavaScript | Python

  /** Whitespace in `rt`. Both languages count tab, line feed, vertical tab,
      form feed, carriage return (U+0009 to U+000D), the space separators
      U+0020, U+00A0, U+1680, U+2000 to U+200A, U+202F, U+205F, U+3000, and
      the line and paragraph separators U+2028, U+2029. JavaScript also
      counts the byte order mark U+FEFF (ECMA-262's WhiteSpace and
      LineTerminator productions); Python's `str.isspace` also counts the
      information separators U+001C to U+001F and the next-line character
      U+0085. */
  predicate IsSpace(rt: Runtime, c: char) {
    || c == ' ' || '\t' <= c <= '\r'
    || c == '\U{00A0}' || c == '\U{1680}' || '\U{2000}' <= c <= '\U{200A}'
    || c == '\U{2028}' || c == '\U{2029}' || c == '\U{202F}' || c == '\U{205F}' || c == '\U{3000}'
    || (rt == JavaScript && c == '\U{FEFF}')
    || (rt == Python && ('\U{001C}' <= c <= '\U{001F}' || c == '\U{0085}'))
  }

  predicate AllSpace(rt: Runtime, s: string) {
    forall i :: 0 <= i < |s| ==> IsSpace(rt, s[i])
  }

  /** No whitespace at either end (the empty string qualifies). */
  predicate Trimmed(rt: Runtime, s: string) {
    |s| == 0 || (!IsSpace(rt, s[0]) && !IsSpace(rt, s[|s| - 1]))
  }

  /** Number of leading whitespace characters of `s`. */
  function Lead(rt: Runtime, s: string): (n: nat)
    ensures n <= |s|
    ensures AllSpace(rt, s[..n])
    ensures n < |s| ==> !IsSpace(rt, s[n])
  {
    if |s| == 0 || !IsSpace(rt, s[0]) then 0
    else
      var n := 1 + Lead(rt, s[1..]);
      assert forall i :: 1 <= i < n ==> s[i] == s[1..][..n - 1][i - 1];
      n
  }

  /** Length of `s` once its trailing whitespace is cut off. */
  function Stop(rt: Runtime, s: string): (n: nat)
    ensures n <= |s|
    ensures AllSpace(rt, s[n..])
    ensures n > 0 ==> !IsSpace(rt, s[n - 1])
  {
    if |s| == 0 || !IsSpace(rt, s[|s| - 1]) then |s|
    else
      var n := Stop(rt, s[..|s| - 1]);
      assert forall i :: n <= i < |s| - 1 ==> s[i] == s[..|s| - 1][n..][i - n];
      n
  }

  /** A string is whitespace only exactly when both parts of any cut are. */
  lemma AllSpaceCut(rt: Runtime, s: string, n: nat)
    requires n <= |s|
    ensures AllSpace(rt, s) <==> AllSpace(rt, s[..n]) && AllSpace(rt, s[n..])
  {
    if AllSpace(rt, s[..n]) && AllSpace(rt, s[n..]) {
      forall i | 0 <= i < |s| ensures IsSpace(rt, s[i]) {
        if i < n { assert s[i] == s[..n][i]; } else { assert s[i] == s[n..][i - n]; }
      }
    }
  }

  /** The two slices that `Trim` takes of a suffix, as slices of `s` itself. */
  lemma SuffixSlices(s: string, n: nat, m: nat)
    requires n + m <= |s|
    ensures s[n..][..m] == s[n..n + m]
    ensures s[n..][m..] == s[n + m..]
  {
  }

  /** `s.trim()` in the client, `s.strip()` on the server: the slice of `s`
      from its first to its last character that is not whitespace in `rt`. */
  function Trim(rt: Runtime, s: string): (r: string)
    ensures Trimmed(rt, r)
    ensures |r| <= |s| - Lead(rt, s)
    ensures r == s[Lead(rt, s)..Lead(rt, s) + |r|]
    ensures AllSpace(rt, s[Lead(rt, s) + |r|..])
    ensures r == "" <==> AllSpace(rt, s)
  {
    var n := Lead(rt, s);
    var t := s[n..];
    var m := Stop(rt, t);
    SuffixSlices(s, n, m);
    AllSpaceCut(rt, s, n);
    assert t[..m] != "" ==> t[..m][0] == t[0];
    t[..m]
  }

  /** The whitespace prefix of `s` is as long as any whitespace prefix
      followed by a non-whitespace character or the end. */
  lemma LeadIs(rt: Runtime, s: string, n: nat)
    requires n <= |s| && AllSpace(rt, s[..n]) && (n < |s| ==> !IsSpace(rt, s[n]))
    ensures Lead(rt, s) == n
  {
    var l := Lead(rt, s);
    assert forall i :: 0 <= i < n ==> IsSpace(rt, s[i]) by {
      assert forall i :: 0 <= i < n ==> s[..n][i] == s[i];
    }
    assert forall i :: 0 <= i < l ==> IsSpace(rt, s[i]) by {
      assert forall i :: 0 <= i < l ==> s[..l][i] == s[i];
    }
  }

  /** Whatever whitespace surrounds a trimmed, non-empty middle `s[n..n + m]`,
      trimming yields exactly that middle. */
  lemma TrimIs(rt: Runtime, s: string, n: nat, m: nat)
    requires 0 < m && n + m <= |s|
    requires AllSpace(rt, s[..n]) && AllSpace(rt, s[n + m..]) && Trimmed(rt, s[n..n + m])
    ensures Trim(rt, s) == s[n..n + m]
  {
    assert s[n..n + m][0] == s[n];
    LeadIs(rt, s, n);
    var r := Trim(rt, s);
    assert r != "" by {
      assert !IsSpace(rt, s[n]);
    }
    assert r[|r| - 1] == s[n + |r| - 1];
    assert forall i :: n + m <= i < |s| ==> IsSpace(rt, s[i]) by {
      assert forall i :: n + m <= i < |s| ==> s[n + m..][i - n - m] == s[i];
    }
    assert forall i :: n + |r| <= i < |s| ==> IsSpace(rt, s[i]) by {
      assert forall i :: n + |r| <= i < |s| ==> s[n + |r|..][i - n - |r|] == s[i];
    }
    assert s[n..n + m][m - 1] == s[n + m - 1];
    assert |r| == m;
  }

  /** Trim is characterised by its shape: whatever whitespace surrounds a
      trimmed middle, trimming yields exactly that middle. */
  lemma TrimUnique(rt: Runtime, pre: string, mid: string, post: string)
    requires AllSpace(rt, pre) && AllSpace(rt, post) && Trimmed(rt, mid)
    ensures Trim(rt, pre + mid + post) == mid
  {
    var s := pre + mid + post;
    var n, m := |pre|, |mid|;
    assert s[..n] == pre;
    assert s[n..n + m] == mid;
    assert s[n + m..] == post;
    if m == 0 {
      AllSpaceCut(rt, s, n);
      assert s[n..] == post;
    } else {
      TrimIs(rt, s, n, m);
    }
  }

  /** Every string is its trim padded with whitespace on both sides. */
  lemma TrimSplits(rt: Runtime, s: string) returns (pre: string, r: string, post: string)
    ensures s == pre + r + post && r == Trim(rt, s)
    ensures AllSpace(rt, pre) && AllSpace(rt, post)
  {
    var n := Lead(rt, s);
    r := Trim(rt, s);
    pre, post := s[..n], s[n + |r|..];
    assert s == s[..n] + s[n..n + |r|] + s[n + |r|..];
  }

  lemma TrimIdempotent(rt: Runtime, s: string)
    ensures Trim(rt, Trim(rt, s)) == Trim(rt, s)
  {
    TrimUnique(rt, "", Trim(rt, s), "");
    assert "" + Trim(rt, s) + "" == Trim(rt, s);
  }

  /** Python's `str.lower()` on ASCII letters; every other character is kept. */
  function LowerChar(c: char): char {
    if 'A' <= c <= 'Z' then (c as int - 'A' as int + 'a' as int) as char else c
  }

  function Lower(s: string): (r: string)
    ensures |r| == |s|
    ensures forall i :: 0 <= i < |r| ==> !('A' <= r[i] <= 'Z')
    ensures forall i :: 0 <= i < |s| && !('A' <= s[i] <= 'Z') ==> r[i] == s[i]
  {
    seq(|s|, i requires 0 <= i < |s| => LowerChar(s[i]))
  }

  /** `s.startsWith(p)`. */
  predicate StartsWith(s: string, p: string) {
    |p| <= |s| && s[..|p|] == p
  }

  predicate OccursAt(s: string, p: string, k: nat) {
    k + |p| <= |s| && s[k..k + |p|] == p
  }

  /** Python's substring test `p in s`. */
  predicate Contains(s: string, p: string) {
    exists k: nat | k <= |s| :: OccursAt(s, p, k)
  }
}
